=== FILE: README.md ===
# Trivia Snake: the game rules as a verified state machine

This project models the rules of the trivia snake game in Dafny. A snake moves
one cell per tick on a window that wraps around at the edges. Three apples
carry the answer options of a trivia question. The head eating the apple with
the correct answer grows the snake and raises the score. A wrong apple shrinks
it and lowers the score. The game ends when the score falls to -3 or when the
head runs into the body. Score milestones raise the difficulty of the questions
and the tick rate. The menu's speed buttons choose the tick rate a game starts
with.

The model is pure. A game is an immutable `GameWidget.Game` record. One tick is
the function `GameWidget.Step`, and a run of swipes and ticks is `Play.Run`.
Every random choice of the game is a parameter (`GameWidget.Draw`):

- `random.choice` is an index reduced into range.
- `random.shuffle` is a sequence of picks. Each pick chooses the next element
  from those left, and every permutation can be produced this way.
- Each `random.randint(0, n)` draw is an arbitrary integer reduced into `[0, n]`.

Modules, leaves first:

| file | module | what it holds |
|---|---|---|
| layout.dfy | `Ints`, `Layout` | integer helpers; window and cell sizes (`Config`) |
| geometry.dfy | `Geometry` | `check_collision` |
| steering.dfy | `Steering` | headings, turning, wrapped movement, `detect_swipe` |
| pace.dfy | `Pace` | FPS limits, difficulty ladder, `adjust_difficulty`, `adjust_fps` |
| trivia.dfy | `Trivia` | question records, `get_random_question` |
| placement.dfy | `Placement` | `place_apples` and the option shuffle |
| game.dfy | `GameWidget` | the game record, `start_game`, `update` |
| play.dfy | `Play` | tick outcomes, runs of events, the running invariant |
| menu.dfy | `Menu` | the menu speed counter and its hand-off to the game |

The model keeps these behaviours of the code, which a reader might not expect:

- The swipe threshold is 5% of the window width for both axes, including
  vertical swipes (`Steering.LemmaVerticalThresholdUsesWidth`).
- The difficulty climbs each time a resolution lands on a positive multiple of
  5, not only the first time. This includes a wrong answer that falls from 6 to
  5 (`Pace.LemmaEscalatesOnEveryLanding`, applied to a tick by
  `Play.LemmaStepWrong`, which sets the new difficulty and rate to
  `adjust_difficulty` of the lowered score).
- A wrong answer inserts a head and pops two segments. The body ends one
  segment shorter than before the tick, not two (`Play.LemmaStepWrong`).
- The new question after a resolution is drawn at the difficulty in force
  before that resolution's escalation (`Play.LemmaQuestionDrawnBeforeEscalation`).
- `place_apples` gives up only when `x_max <= 0` or `y_max <= 0`. Otherwise it
  retries until three apples are placed, which never ends when fewer than three
  cells are free. The model draws from a finite list of candidate cells and
  stops when the list runs out.

## Model

| member | source | states |
|---|---|---|
| Geometry.LemmaCollidesSymmetric | game_widget.py:312-313 | the collision test gives the same answer with its arguments swapped |
| Geometry.LemmaTouchingEdgesDoNotCollide | game_widget.py:312-313 | rectangles that only share an edge do not collide, because every comparison is strict |
| Geometry.LemmaCollidesIffSharedPixel | game_widget.py:312-313 | for positive sizes, two rectangles collide exactly when some pixel lies in both half-open boxes |
| Steering.Turn | game_widget.py:210-217 | the requested heading is adopted unless it is the exact reverse of the current one, which is kept |
| Steering.Move | game_widget.py:218-227 | the moved head is on screen, and each coordinate is congruent to the unwrapped one-cell move modulo the window size |
| Steering.DetectSwipe | game_widget.py:197-207 | a swipe whose dominant axis is not above 5% of the width keeps the current heading; a longer one yields the heading that goes furthest along the swipe, vertical on a tie |
| Steering.LemmaVerticalThresholdUsesWidth | game_widget.py:200-206 | a vertical swipe is measured against the width: 6 pixels up on a 100-pixel-wide window turns the snake |
| Pace.AdjustDifficulty | game_widget.py:277-290 | on a positive multiple of 5 the difficulty climbs one rung, staying at Hard, and the rate becomes min(fps + 1, MaxFps); otherwise nothing changes |
| Pace.LemmaAdjustDifficultyMonotone | game_widget.py:277-290 | escalation never lowers the difficulty and keeps an in-range rate in range |
| Pace.LemmaEscalatesOnEveryLanding | game_widget.py:278-284 | landing on score 5 climbs a rung whether or not 5 was reached before |
| Pace.AdjustFps | game_widget.py:294-306 | the new rate is in [MinFps, MaxFps], equals fps + delta when that is in range, and is the in-range rate nearest to it |
| Pace.LemmaAdjustFpsAtBound | game_widget.py:294-306 | pushing against the bound the rate already sits on leaves it unchanged |
| Pace.LemmaAdjustFpsCompose | game_widget.py:294-306 | two adjustments of the same sign from an in-range rate equal one adjustment by their sum |
| Trivia.Pad | game_widget.py:183-184 | padding yields exactly three options, keeps the given ones in front, and fills the rest with "N/A" |
| Trivia.Normalize | game_widget.py:182-184 | the options become exactly three: option i is the i-th given option if there is one, else "N/A" |
| Trivia.LemmaNormalizeIdempotent | game_widget.py:182-184 | normalizing twice is normalizing once, so the in-place rewrite of a pool record changes no later draw |
| Trivia.RandomQuestion | game_widget.py:174-185 | the result has exactly three options; an empty category and difficulty gives the "N/A" placeholder; otherwise it is one of the available records with its options normalized |
| Trivia.LemmaEveryQuestionReachable | game_widget.py:175-182 | every available record can be the one drawn |
| Placement.GridOf | game_widget.py:161-165 | the apple grid has a positive cell size and a vertical margin of at least one apple |
| Placement.Cell | game_widget.py:169-170 | a pair of randint draws selects a cell (i * size, j * size + margin) with 0 <= i <= x_max and 0 <= j <= y_max |
| Placement.Fill | game_widget.py:163-172 | the retry loop keeps what was placed, places at most three distinct grid cells off the snake, and stops short of three only when every candidate cell is on the snake or already taken |
| Placement.Shuffle | game_widget.py:157 | the shuffled options are a permutation of the given ones |
| Placement.LemmaShuffleReachesEveryPermutation | game_widget.py:157 | every permutation of the options is the outcome of some shuffle |
| Placement.PlaceApples | game_widget.py:152-172 | at most three pairwise-distinct grid cells, none on a snake segment; none at all when x_max <= 0 or y_max <= 0; fewer than three only when every candidate cell is taken; the slot options are a permutation of the first three options |
| Placement.LemmaCellOnScreen | game_widget.py:161-170 | every grid cell lies fully on screen, at least one label margin above the bottom edge and below the top edge |
| GameWidget.Refresh | game_widget.py:250-251 | a new question drawn at the current difficulty with exactly three options and a permutation of them on the apple slots, at most three pairwise-distinct grid cells off the snake as apples, fewer than three only when every candidate cell is taken, nothing else changed |
| GameWidget.InitialBody | game_widget.py:126-130 | the starting snake has three segments, the head at the given point and segment k exactly k cells to its left on the same row |
| GameWidget.StartGame | game_widget.py:118-137 | a running game at score 0, Easy, heading right, with a three-segment body leftwards from the window centre, the given rate and high score, a first question drawn at Easy, its options permuted on the slots and apples placed off the body (fewer than three only when every candidate cell is taken), and the running invariant when the rate is in range |
| GameWidget.OnSwipe | game_widget.py:191-195 | a swipe sets the pending direction to the detected swipe and changes nothing else, not even the heading |
| GameWidget.Advance | game_widget.py:210-228 | the new head is on screen and is inserted in front of the unchanged old body; only heading, position and body change |
| GameWidget.Hits | game_widget.py:229-233 | for positive sizes, the head hits an apple exactly when some pixel lies in both squares |
| GameWidget.FirstHit | game_widget.py:229-234 | the hit index is the lowest apple the head overlaps; a miss means the head overlaps none |
| GameWidget.Eat | game_widget.py:233-260 | a correct apple raises the score by 1 and keeps the body; a wrong one lowers it by 1 and pops a segment if more than one remains; the question is drawn at the old difficulty, the apples are a fresh batch of pairwise-distinct grid cells off the new body, fewer than three only when every candidate cell is taken with the new question's options permuted on them, difficulty and rate become adjust_difficulty of the new score; the game ends there exactly when the score is at most -3, with high score max(old, score) |
| GameWidget.Settle | game_widget.py:262-272 | the tail is popped unless growing; an empty body faults; the game ends exactly when the head equals a later segment, with high score max(old, score) |
| GameWidget.Step | game_widget.py:209-272 | after a tick the head is on screen, the heading is the request unless that reverses it, the category and the pending direction are kept, the difficulty has not dropped, the score moved by at most one, and the high score changed only on game over, to max(old, score); after an apple hit the difficulty and rate are adjust_difficulty of the new score and fresh apples lie off the body |
| Play.Run | game_widget.py:141 | over a sequence of swipes and scheduled ticks, a finished game takes no further ticks (game_widget.py:371 unschedules it), the category is kept, the difficulty never drops and the high score never falls |
| Play.LemmaStepMiss | game_widget.py:218-272 | with no apple hit, the body becomes the new head followed by the old body without its tail; score, apples, question and pace are unchanged, and the game ends exactly when the new head lands on a segment other than the vacated tail |
| Play.LemmaStepCorrect | game_widget.py:235-265 | a correct apple raises the score by 1 and keeps the tail: the body becomes the new head followed by the whole old body; difficulty and rate become adjust_difficulty of the new score and the fresh apples lie off the body; the game ends exactly at the floor or when the new head lands on an old segment |
| Play.LemmaStepWrong | game_widget.py:240-266 | a wrong apple lowers the score by 1 and sets difficulty and rate to adjust_difficulty of the lowered score, with fresh apples off the body; at the floor the game ends before the tail pop; otherwise the body becomes the new head followed by the old body without its last two segments, or faults when it had one segment |
| Play.LemmaQuestionDrawnBeforeEscalation | game_widget.py:250-253 | after a resolution the new question comes from the pool at the difficulty in force before adjust_difficulty runs |
| Play.LemmaOverOnlyByFloorOrCollision | game_widget.py:254-272 | a tick that ends the game leaves a score of at most -3 or the head on a later segment |
| Play.LemmaStepKeepsInv | game_widget.py:209-272 | a tick of a running game that keeps len(body) == 3 + score, score > -3, the head in front and on screen, and the rate in range never faults and keeps all of these |
| Play.LemmaSwipeKeepsInv | game_widget.py:191-195 | a swipe changes nothing but the pending direction, leaves the heading as it was, and keeps the running invariant |
| Play.LemmaShortSwipeCancelsTurn | game_widget.py:191-207 | a swipe too short to register resets the pending direction to the current heading |
| Play.LemmaRunKeepsInv | game_widget.py:209-272 | over any sequence of swipes and ticks the invariant holds, no tick faults, the difficulty never drops and the high score never falls |
| Menu.SpeedUp | screens.py:128-133 | the rate rises by exactly 1 when below MaxFps and is unchanged otherwise, agreeing with adjust_fps(+1) on in-range rates |
| Menu.SlowDown | screens.py:135-140 | the rate falls by exactly 1 when above MinFps and is unchanged otherwise, agreeing with adjust_fps(-1) on in-range rates |
| Menu.LemmaPressesStayInRange | screens.py:128-140 | any sequence of button presses from an in-range rate stays in [MinFps, MaxFps] |
| Menu.LemmaMenuRateInRange | screens.py:28 | starting from InitialFps = 10, every rate the menu can reach lies in [5, 30] |
| Menu.LemmaSlowDownUndoesSpeedUp | screens.py:128-140 | from an in-range rate below the top, one step down undoes one step up |
| Menu.SelectCategory | screens.py:100-105 | the new game runs at exactly the menu's rate, at score 0, Easy, three segments, and satisfies the running invariant when the rate is in range |
| Menu.LemmaSession | screens.py:100-105 | a game started from the menu never faults, and while it runs its body has exactly 3 + score segments, at least one, with the head on screen |

## Left out

- Drawing, labels, textures, icons and sounds (`draw_elements`, `show_feedback`, `load_image`, `load_icon`, `load_background`, the sound loads, `update_score_labels`): presentation only.
- The question-text callback (`question_callback`) and the console logging (`print`): presentation only.
- The feedback markers and their expiry sweep: presentation driven by the wall clock.
- `Clock.schedule_interval` and `Clock.unschedule`: the rate is modelled only as the integer `fps`, and a finished game (`over`) takes no further ticks.
- `load_high_score` and `save_high_score`: the high score is an integer the caller loads and persists.
- `load_trivia_questions`: the pool is a given map from category to difficulty to records.
- Screen switching in `game_over`, screen layouts, the settings sliders and `main.py`: user-interface wiring.
- Window resizing and touch capture (`update_size`, `on_touch_down`): the window is a fixed `Config`, and a swipe arrives as a start and end point.
- `dp()` scaling and float sizes: all sizes and positions are integers.
- Steering.DetectSwipe: the float comparison `|d| > WIDTH * 0.05` is taken as the exact `20 * |d| > WIDTH`, so float rounding at the exact threshold is not modelled.
- Placement.PlaceApples: the candidate cells are a finite list, so the model stops where the source would keep retrying forever; the "Option 1/2/3" fallback is left out because a question is always drawn just before.
- GameWidget.Step: `grow_snake` is a local of the tick. Start-up resets it, and a tick that ends the game before resetting it is never followed by another tick.
- GameWidget.Eat: removing the eaten apple and its option from the lists is left out, because the refresh that follows replaces both lists.

=== FILE: game.dfy ===
/**
 The rules of GameWidget as a pure state machine: starting a game, the swipe
 handler, and the per-tick update with its apple resolution, tail pop,
 self-collision check and score floor. Drawing, sound, timers and the
 high-score file are not part of this model; the high score is a plain
 integer the caller persists.
 */
module GameWidget {
  import opened Ints
  import opened Layout
  import opened Geometry
  import opened Steering
  import opened Pace
  import opened Trivia
  import opened Placement

  /** The random choices one question-and-apples refresh consumes. */
  datatype Draw = Draw(
    pick: nat,             // random.choice over the available questions
    shuffle: seq<nat>,     // random.shuffle of the options
    cells: seq<Point>)     // successive random.randint pairs of place_apples

  datatype Game = Game(
    category: string,
    pos: Point,               // snake_pos
    body: seq<Point>,         // snake_body, head first
    direction: Direction,     // snake_direction
    changeTo: Direction,      // change_to, the pending request
    score: int,
    highScore: int,
    difficulty: Difficulty,   // current_difficulty
    fps: int,
    question: Question,       // question_data; correct_answer is question.correct
    apples: seq<Point>,       // apple_positions
    options: seq<string>,     // the option bound to each apple slot
    over: bool)               // game_over has run and the tick is unscheduled

  /** The outcome of one tick; EmptyBody is the IndexError of reading the head of an empty body. */
  datatype StepResult = Stepped(game: Game) | EmptyBody

  /** The first apple the head overlaps, if any. */
  datatype Hit = Miss | HitAt(index: nat)

  /** What a running game keeps true between ticks. */
  predicate Inv(cfg: Config, g: Game) {
    && MinFps <= g.fps <= MaxFps
    && |g.options| == 3
    && |g.apples| <= 3
    && (!g.over ==>
          && |g.body| == 3 + g.score
          && g.score > -3
          && g.body[0] == g.pos
          && InBounds(cfg, g.pos))
  }

  /** get_random_question followed by place_apples, with the game's current category and difficulty. */
  function Refresh(cfg: Config, pool: Pool, g: Game, draw: Draw): (r: Game)
    requires cfg.Valid()
    ensures r == g.(question := r.question, apples := r.apples, options := r.options)
    ensures |r.question.options| == 3 && |r.options| == 3 && |r.apples| <= 3
    ensures Available(pool, g.category, g.difficulty) == [] ==> r.question == Placeholder
    ensures forall k :: 0 <= k < |r.apples| ==> r.apples[k] !in g.body
    ensures multiset(r.options) == multiset(r.question.options)
    ensures r.question == RandomQuestion(pool, g.category, g.difficulty, draw.pick)
    ensures Placed(GridOf(cfg), g.body, r.apples)
    ensures Roomy(GridOf(cfg)) && |r.apples| < 3 ==>
      forall c :: c in draw.cells ==> Cell(GridOf(cfg), c) in g.body || Cell(GridOf(cfg), c) in r.apples
  {
    var q := RandomQuestion(pool, g.category, g.difficulty, draw.pick);
    var placed := PlaceApples(cfg, g.body, q.options, draw.shuffle, draw.cells);
    g.(question := q, apples := placed.0, options := placed.1)
  }

  /** The starting snake: three segments, head at c, each one cell left of the one before. */
  function InitialBody(c: Point, size: int): (b: seq<Point>)
    ensures |b| == 3 && b[0] == c
    ensures forall k :: 0 <= k < |b| ==> b[k] == (c.0 - k * size, c.1)
  {
    [c, (c.0 - size, c.1), (c.0 - 2 * size, c.1)]
  }

  /**
   start_game, after GameScreen has copied its rate into the widget: a
   three-segment body laid out leftwards from the window centre, heading right,
   score 0, Easy, a first question and apples. The high score carries over.
   */
  function StartGame(cfg: Config, pool: Pool, category: string, fps: int, highScore: int, draw: Draw): (r: Game)
    requires cfg.Valid()
    ensures !r.over && r.score == 0 && r.difficulty == Easy
    ensures r.direction == Right && r.changeTo == Right
    ensures r.fps == fps && r.highScore == highScore && r.category == category
    ensures r.pos == (cfg.width / 2, cfg.height / 2) && |r.body| == 3
    ensures r.body == InitialBody(r.pos, cfg.snakeSize)
    ensures r.question == RandomQuestion(pool, category, Easy, draw.pick)
    ensures multiset(r.options) == multiset(r.question.options)
    ensures Placed(GridOf(cfg), r.body, r.apples)
    ensures Roomy(GridOf(cfg)) && |r.apples| < 3 ==>
      forall c :: c in draw.cells ==> Cell(GridOf(cfg), c) in r.body || Cell(GridOf(cfg), c) in r.apples
    ensures MinFps <= fps <= MaxFps ==> Inv(cfg, r)
  {
    var c := (cfg.width / 2, cfg.height / 2);
    var g := Game(category, c, InitialBody(c, cfg.snakeSize), Right, Right, 0, highScore, Easy, fps, Placeholder, [], [], false);
    Refresh(cfg, pool, g, draw)
  }

  /** on_touch_up: the swipe becomes the pending direction; the heading itself waits for the next tick. */
  function OnSwipe(cfg: Config, g: Game, start: Point, end: Point): (r: Game)
    ensures r.(changeTo := g.changeTo) == g
    ensures r.changeTo == DetectSwipe(cfg.width, g.direction, start, end)
  {
    g.(changeTo := DetectSwipe(cfg.width, g.direction, start, end))
  }

  /** The head the next tick moves to. */
  function NextHead(cfg: Config, g: Game): Point
    requires cfg.Valid()
  {
    Move(cfg, g.pos, Turn(g.direction, g.changeTo))
  }

  /**
   The start of update: turn, move one cell with wrap-around, insert the new
   head. The body grows by one in front and nothing but heading, position and
   body changes.
   */
  function Advance(cfg: Config, g: Game): (r: Game)
    requires cfg.Valid()
    ensures |r.body| == |g.body| + 1 && r.body[0] == r.pos && r.body[1..] == g.body && InBounds(cfg, r.pos)
    ensures r == g.(direction := Turn(g.direction, g.changeTo), pos := NextHead(cfg, g), body := [NextHead(cfg, g)] + g.body)
  {
    var d := Turn(g.direction, g.changeTo);
    var p := Move(cfg, g.pos, d);
    g.(direction := d, pos := p, body := [p] + g.body)
  }

  /** The head square overlaps the apple square, by check_collision. */
  function Hits(cfg: Config, head: Point, apple: Point): (hit: bool)
    ensures cfg.snakeSize > 0 && cfg.appleSize > 0 ==>
      (hit <==> exists px, py :: Covers(Rect(head.0, head.1, cfg.snakeSize, cfg.snakeSize), px, py)
                              && Covers(Rect(apple.0, apple.1, cfg.appleSize, cfg.appleSize), px, py))
  {
    var a := Rect(head.0, head.1, cfg.snakeSize, cfg.snakeSize);
    var b := Rect(apple.0, apple.1, cfg.appleSize, cfg.appleSize);
    if cfg.snakeSize > 0 && cfg.appleSize > 0 then
      LemmaCollidesIffSharedPixel(a, b);
      Collides(a, b)
    else Collides(a, b)
  }

  /** The apple loop of update: the lowest-index apple the head overlaps. */
  function FirstHit(cfg: Config, head: Point, apples: seq<Point>): (r: Hit)
    ensures r.Miss? ==> forall k :: 0 <= k < |apples| ==> !Hits(cfg, head, apples[k])
    ensures r.HitAt? ==> r.index < |apples| && Hits(cfg, head, apples[r.index])
    ensures r.HitAt? ==> forall k :: 0 <= k < r.index ==> !Hits(cfg, head, apples[k])
    decreases |apples|
  {
    if |apples| == 0 then Miss
    else if Hits(cfg, head, apples[0]) then HitAt(0)
    else match FirstHit(cfg, head, apples[1..])
      case Miss => Miss
      case HitAt(k) => HitAt(k + 1)
  }

  /** The option of apple slot i, or "" past the end of the options. */
  function OptionAt(options: seq<string>, i: nat): string {
    if i < |options| then options[i] else ""
  }

  /** The body with its last segment removed (list.pop()). */
  function DropLast(body: seq<Point>): seq<Point>
    requires |body| > 0
  {
    body[..|body| - 1]
  }

  /** The apple at slot i of the moved game m carries the correct answer. */
  predicate Answers(m: Game, i: nat) {
    OptionAt(m.options, i) == m.question.correct
  }

  /**
   The hit branch of update for apple slot i, up to and including the score
   floor: score and body change, a new question and apples are drawn (still at
   the old difficulty), then adjust_difficulty runs, and a score at or below -3
   ends the game before the tail pop. The bool is grow_snake.
   */
  function Eat(cfg: Config, pool: Pool, m: Game, i: nat, draw: Draw): (r: (Game, bool))
    requires cfg.Valid() && !m.over
    ensures r.1 == Answers(m, i)
    ensures r.0.score == (if Answers(m, i) then m.score + 1 else m.score - 1)
    ensures r.0.body == (if !Answers(m, i) && |m.body| > 1 then DropLast(m.body) else m.body)
    ensures r.0.over <==> r.0.score <= -3
    ensures r.0.highScore == (if r.0.over then Max(m.highScore, r.0.score) else m.highScore)
    ensures r.0.pos == m.pos && r.0.direction == m.direction && r.0.changeTo == m.changeTo
    ensures r.0.category == m.category
    ensures r.0.question == RandomQuestion(pool, m.category, m.difficulty, draw.pick)
    ensures (r.0.difficulty, r.0.fps) == AdjustDifficulty(r.0.score, m.difficulty, m.fps)
    ensures forall k :: 0 <= k < |r.0.apples| ==> r.0.apples[k] !in r.0.body
    ensures multiset(r.0.options) == multiset(r.0.question.options)
    ensures Placed(GridOf(cfg), r.0.body, r.0.apples)
    ensures Roomy(GridOf(cfg)) && |r.0.apples| < 3 ==>
      forall c :: c in draw.cells ==> Cell(GridOf(cfg), c) in r.0.body || Cell(GridOf(cfg), c) in r.0.apples
    ensures Rank(r.0.difficulty) >= Rank(m.difficulty)
    ensures MinFps <= m.fps <= MaxFps ==> MinFps <= r.0.fps <= MaxFps
    ensures |r.0.options| == 3 && |r.0.apples| <= 3
  {
    LemmaAdjustDifficultyMonotone(if Answers(m, i) then m.score + 1 else m.score - 1, m.difficulty, m.fps);
    var right := Answers(m, i);
    var score := if right then m.score + 1 else m.score - 1;
    var body := if !right && |m.body| > 1 then DropLast(m.body) else m.body;
    var drawn := Refresh(cfg, pool, m.(score := score, body := body), draw);
    var pace := AdjustDifficulty(score, m.difficulty, m.fps);
    var e := drawn.(difficulty := pace.0, fps := pace.1);
    if score <= -3 then (e.(highScore := Max(e.highScore, score), over := true), right)
    else (e, right)
  }

  /** The end of update: pop the tail unless growing, then the self-collision check. */
  function Settle(g: Game, grow: bool): (r: StepResult)
    requires |g.body| > 0 && !g.over
    ensures var body := if grow then g.body else DropLast(g.body);
      && (r.EmptyBody? <==> |body| == 0)
      && (r.Stepped? ==> r.game.body == body)
      && (r.Stepped? ==> (r.game.over <==> body[0] in body[1..]))
      && (r.Stepped? ==> r.game == g.(body := body, highScore := r.game.highScore, over := r.game.over))
      && (r.Stepped? ==> r.game.highScore == (if r.game.over then Max(g.highScore, g.score) else g.highScore))
  {
    var body := if grow then g.body else DropLast(g.body);
    if |body| == 0 then EmptyBody
    else if body[0] in body[1..] then Stepped(g.(body := body, highScore := Max(g.highScore, g.score), over := true))
    else Stepped(g.(body := body))
  }

  /**
   update: one tick of a running game. The head always ends on screen, the
   heading is the request unless that reverses it, the difficulty never drops,
   and the high score changes only when the game ends, to the larger of it and
   the final score.
   */
  function Step(cfg: Config, pool: Pool, g: Game, draw: Draw): (r: StepResult)
    requires cfg.Valid() && !g.over
    ensures r.Stepped? ==> InBounds(cfg, r.game.pos)
    ensures r.Stepped? ==> r.game.direction == (if g.changeTo == Opposite(g.direction) then g.direction else g.changeTo)
    ensures r.Stepped? ==> r.game.highScore == (if r.game.over then Max(g.highScore, r.game.score) else g.highScore)
    ensures r.Stepped? ==> Rank(r.game.difficulty) >= Rank(g.difficulty)
    ensures r.Stepped? ==> g.score - 1 <= r.game.score <= g.score + 1
    ensures r.Stepped? ==> r.game.category == g.category && r.game.changeTo == g.changeTo
    ensures r.Stepped? && FirstHit(cfg, NextHead(cfg, g), g.apples).HitAt? ==>
      && (r.game.difficulty, r.game.fps) == AdjustDifficulty(r.game.score, g.difficulty, g.fps)
      && (forall k :: 0 <= k < |r.game.apples| ==> r.game.apples[k] !in r.game.body)
      && multiset(r.game.options) == multiset(r.game.question.options)
  {
    var m := Advance(cfg, g);
    match FirstHit(cfg, m.pos, m.apples)
    case Miss => Settle(m, false)
    case HitAt(i) =>
      var e := Eat(cfg, pool, m, i, draw);
      if e.0.over then Stepped(e.0) else Settle(e.0, e.1)
  }
}

=== FILE: geometry.dfy ===
/** The rectangle overlap test the game uses for apple hits. */
module Geometry {

  /** An axis-aligned rectangle (x, y, width, height), the tuple shape update builds. */
  datatype Rect = Rect(x: int, y: int, w: int, h: int)

  /** check_collision: the two rectangles overlap, every comparison strict. */
  predicate Collides(a: Rect, b: Rect) {
    a.x < b.x + b.w && a.x + a.w > b.x && a.y < b.y + b.h && a.y + a.h > b.y
  }

  /** The unit pixel (px, py) lies inside r, taken as the half-open box [x, x+w) x [y, y+h). */
  predicate Covers(r: Rect, px: int, py: int) {
    r.x <= px < r.x + r.w && r.y <= py < r.y + r.h
  }

  /** The test does not depend on which rectangle comes first. */
  lemma LemmaCollidesSymmetric(a: Rect, b: Rect)
    ensures Collides(a, b) <==> Collides(b, a)
  {
  }

  /** Rectangles that only share an edge do not collide. */
  lemma LemmaTouchingEdgesDoNotCollide(a: Rect, b: Rect)
    requires a.x + a.w == b.x || b.x + b.w == a.x || a.y + a.h == b.y || b.y + b.h == a.y
    ensures !Collides(a, b)
  {
  }

  /**
   For rectangles of positive size, the strict test holds exactly when some
   pixel is covered by both: it is the overlap of half-open boxes.
   */
  lemma LemmaCollidesIffSharedPixel(a: Rect, b: Rect)
    requires a.w > 0 && a.h > 0 && b.w > 0 && b.h > 0
    ensures Collides(a, b) <==> exists px, py :: Covers(a, px, py) && Covers(b, px, py)
  {
    if Collides(a, b) {
      var px := if a.x < b.x then b.x else a.x;
      var py := if a.y < b.y then b.y else a.y;
      assert Covers(a, px, py) && Covers(b, px, py);
    }
  }
}

=== FILE: layout.dfy ===
/** Small integer helpers shared by the other modules. */
module Ints {

  function Abs(n: int): nat {
    if n < 0 then -n else n
  }

  function Min(a: int, b: int): int {
    if a <= b then a else b
  }

  function Max(a: int, b: int): int {
    if a >= b then a else b
  }
}

/**
 The window and the display-scaled sizes the game widget reads from the app.
 Kivy's `dp()` scaling is folded into the sizes: every size here is already in
 pixels, and every pixel quantity is an integer.
 */
module Layout {

  /** A pixel position (x, y); y grows upwards, as in Kivy. */
  type Point = (int, int)

  datatype Config = Config(
    width: int,       // WIDTH, from Window.size
    height: int,      // HEIGHT, from Window.size
    snakeSize: int,   // dp(app.snake_size): one snake cell and one step
    appleSize: int,   // dp(app.apple_size): one apple cell
    labelGap: int,    // dp(10): gap between an apple and its option label
    textHeight: int)  // dp(30): the estimated height of an option label
  {
    predicate Valid() {
      width > 0 && height > 0 && snakeSize > 0 && appleSize > 0 && labelGap >= 0 && textHeight >= 0
    }
  }

  /** The point lies on the screen: [0, width) x [0, height). */
  predicate InBounds(cfg: Config, p: Point) {
    0 <= p.0 < cfg.width && 0 <= p.1 < cfg.height
  }
}

=== FILE: menu.dfy ===
/**
 The menu's speed counter and its hand-off to the game: MenuScreen keeps an
 fps that the two speed buttons move one step at a time inside
 [MinFps, MaxFps]; choosing a category passes it through GameScreen.set_fps
 into the game widget and starts a game.
 */
module Menu {
  import opened Layout
  import opened Pace
  import opened Trivia
  import opened GameWidget
  import opened Play

  /** speed_up: one step faster, unless already at MaxFps. It agrees with the widget's adjust_fps(+1). */
  function SpeedUp(fps: int): (r: int)
    ensures r == fps + 1 <==> fps < MaxFps
    ensures r == fps || r == fps + 1
    ensures MinFps <= fps <= MaxFps ==> r == AdjustFps(fps, 1)
  {
    if fps < MaxFps then fps + 1 else fps
  }

  /** slow_down: one step slower, unless already at MinFps. It agrees with the widget's adjust_fps(-1). */
  function SlowDown(fps: int): (r: int)
    ensures r == fps - 1 <==> fps > MinFps
    ensures r == fps || r == fps - 1
    ensures MinFps <= fps <= MaxFps ==> r == AdjustFps(fps, -1)
  {
    if fps > MinFps then fps - 1 else fps
  }

  datatype Press = Faster | Slower

  /** The menu rate after a sequence of button presses. */
  function Pressed(fps: int, presses: seq<Press>): int
    decreases |presses|
  {
    if |presses| == 0 then fps
    else Pressed(if presses[0] == Faster then SpeedUp(fps) else SlowDown(fps), presses[1..])
  }

  /** Any sequence of presses from an in-range rate stays in range. */
  lemma {:induction false} LemmaPressesStayInRange(fps: int, presses: seq<Press>)
    requires MinFps <= fps <= MaxFps
    ensures MinFps <= Pressed(fps, presses) <= MaxFps
    decreases |presses|
  {
    if |presses| > 0 {
      LemmaPressesStayInRange(if presses[0] == Faster then SpeedUp(fps) else SlowDown(fps), presses[1..]);
    }
  }

  /** The menu starts at InitialFps, which is in range, so every rate it can show is in range. */
  lemma LemmaMenuRateInRange(presses: seq<Press>)
    ensures MinFps <= Pressed(InitialFps, presses) <= MaxFps
  {
    LemmaPressesStayInRange(InitialFps, presses);
  }

  /** Inside the range and below the top, a step down undoes a step up. */
  lemma LemmaSlowDownUndoesSpeedUp(fps: int)
    requires MinFps <= fps < MaxFps
    ensures SlowDown(SpeedUp(fps)) == fps
  {
  }

  /**
   select_category: GameScreen.set_fps stores the menu rate, and
   GameScreen.start_game copies it into the widget before start_game. The new
   game runs at exactly the menu's rate.
   */
  function SelectCategory(cfg: Config, pool: Pool, menuFps: int, highScore: int, category: string, draw: Draw)
    : (r: Game)
    requires cfg.Valid()
    ensures r.fps == menuFps && r.category == category && r.highScore == highScore
    ensures !r.over && r.score == 0 && |r.body| == 3 && r.difficulty == Easy
    ensures MinFps <= menuFps <= MaxFps ==> Inv(cfg, r)
  {
    var screenFps := menuFps;
    StartGame(cfg, pool, category, screenFps, highScore, draw)
  }

  /**
   A whole session: whatever the speed buttons did, a game started from the
   menu never faults, and while it runs its body has exactly 3 + score
   segments, never none, and its head is on screen.
   */
  lemma LemmaSession(cfg: Config, pool: Pool, presses: seq<Press>, highScore: int, category: string,
                     draw: Draw, events: seq<Event>)
    requires cfg.Valid()
    ensures var r := Run(cfg, pool, SelectCategory(cfg, pool, Pressed(InitialFps, presses), highScore, category, draw), events);
      && r.Stepped?
      && MinFps <= r.game.fps <= MaxFps
      && r.game.highScore >= highScore
      && (!r.game.over ==> |r.game.body| == 3 + r.game.score >= 1 && InBounds(cfg, r.game.body[0]))
  {
    LemmaMenuRateInRange(presses);
    var g := SelectCategory(cfg, pool, Pressed(InitialFps, presses), highScore, category, draw);
    LemmaRunKeepsInv(cfg, pool, g, events);
  }
}

=== FILE: pace.dfy ===
/**
 The speed limits, the difficulty ladder and the two ways the game widget
 changes its tick rate: the milestone escalation and the manual adjustment.
 */
module Pace {
  import opened Ints

  const MinFps: int := 5
  const MaxFps: int := 30
  const InitialFps: int := 10

  datatype Difficulty = Easy | Medium | Hard

  /** The position of a difficulty on the ladder Easy < Medium < Hard. */
  function Rank(d: Difficulty): nat {
    match d
    case Easy => 0
    case Medium => 1
    case Hard => 2
  }

  /** A score on which adjust_difficulty acts: a positive multiple of 5. */
  predicate Milestone(score: int) {
    score > 0 && score % 5 == 0
  }

  /**
   adjust_difficulty, returning the new (difficulty, fps). On a milestone the
   difficulty climbs one rung (staying at Hard) and the rate rises by one,
   capped at MaxFps only from above; otherwise nothing changes.
   */
  function AdjustDifficulty(score: int, d: Difficulty, fps: int): (r: (Difficulty, int))
    ensures Milestone(score) ==> Rank(r.0) == Min(Rank(d) + 1, 2) && r.1 == Min(fps + 1, MaxFps)
    ensures !Milestone(score) ==> r == (d, fps)
  {
    if score > 0 && score % 5 == 0 then
      var next := match d
        case Easy => Medium
        case Medium => Hard
        case Hard => Hard;
      var f := fps + 1;
      (next, if f > MaxFps then MaxFps else f)
    else
      (d, fps)
  }

  /** Escalation never lowers the difficulty, and never pushes the rate out of range. */
  lemma LemmaAdjustDifficultyMonotone(score: int, d: Difficulty, fps: int)
    ensures Rank(AdjustDifficulty(score, d, fps).0) >= Rank(d)
    ensures MinFps <= fps <= MaxFps ==> fps <= AdjustDifficulty(score, d, fps).1 <= MaxFps
  {
  }

  /**
   The ladder is climbed on every resolution that lands on a milestone, not
   only the first time it is reached: a score that falls back to 5 from 6
   after Medium was reached at 5 moves the game on to Hard.
   */
  lemma LemmaEscalatesOnEveryLanding(fps: int)
    ensures AdjustDifficulty(5, Easy, fps).0 == Medium
    ensures AdjustDifficulty(5, Medium, fps).0 == Hard
  {
  }

  /** How far the rate v is from the requested rate fps + delta. */
  function Off(fps: int, delta: int, v: int): nat {
    Abs(fps + delta - v)
  }

  /**
   adjust_fps: fps + delta clamped into [MinFps, MaxFps]. The result is the
   in-range value nearest to fps + delta.
   */
  function AdjustFps(fps: int, delta: int): (r: int)
    ensures MinFps <= r <= MaxFps
    ensures MinFps <= fps + delta <= MaxFps ==> r == fps + delta
    ensures forall v :: MinFps <= v <= MaxFps ==> Off(fps, delta, r) <= Off(fps, delta, v)
  {
    var f := fps + delta;
    if f < MinFps then MinFps
    else if f > MaxFps then MaxFps
    else f
  }

  /** Pushing against the bound the rate already sits on leaves it where it is. */
  lemma LemmaAdjustFpsAtBound(fps: int, delta: int)
    ensures fps == MaxFps && delta >= 0 ==> AdjustFps(fps, delta) == fps
    ensures fps == MinFps && delta <= 0 ==> AdjustFps(fps, delta) == fps
  {
  }

  /** Adjusting twice by deltas of the same sign is adjusting once by their sum. */
  lemma LemmaAdjustFpsCompose(fps: int, a: int, b: int)
    requires MinFps <= fps <= MaxFps
    requires (a >= 0 && b >= 0) || (a <= 0 && b <= 0)
    ensures AdjustFps(AdjustFps(fps, a), b) == AdjustFps(fps, a + b)
  {
  }
}

=== FILE: placement.dfy ===
/**
 place_apples: up to three apples on free, distinct cells of a grid that keeps
 a label margin above and below, and the shuffled options bound to them.

 The random draws are parameters. Each `random.randint(0, n)` is an arbitrary
 integer reduced into [0, n], so every cell can be drawn; `random.shuffle` is a
 sequence of picks (the next element taken from those left), which reaches
 every permutation. The source retries until three apples are placed, which
 never ends when fewer than three cells are free; here the candidate draws are
 a finite list and placement stops when it runs out.
 */
module Placement {
  import opened Ints
  import opened Layout
  import opened Trivia

  /** The apple grid: cell size, the largest column and row index, and the bottom margin. */
  datatype Grid = Grid(size: int, xMax: int, yMax: int, margin: int)

  /** x_max, y_max and vertical_margin as place_apples computes them (floor division). */
  function GridOf(cfg: Config): (g: Grid)
    requires cfg.Valid()
    ensures g.size > 0 && g.margin >= g.size
  {
    var margin := cfg.appleSize + cfg.labelGap + cfg.textHeight;
    Grid(cfg.appleSize,
         (cfg.width - cfg.appleSize) / cfg.appleSize,
         (cfg.height - 2 * margin - cfg.appleSize) / cfg.appleSize,
         margin)
  }

  /** The window has room for apples; otherwise place_apples gives up at once. */
  predicate Roomy(g: Grid) {
    g.xMax > 0 && g.yMax > 0
  }

  /** The pixel position of grid cell (i, j). */
  function At(g: Grid, i: int, j: int): Point {
    (i * g.size, j * g.size + g.margin)
  }

  ghost predicate OnGrid(g: Grid, p: Point) {
    exists i, j :: 0 <= i <= g.xMax && 0 <= j <= g.yMax && p == At(g, i, j)
  }

  /** The cell a pair of randint draws selects. */
  function Cell(g: Grid, c: Point): (p: Point)
    requires g.xMax >= 0 && g.yMax >= 0
    ensures OnGrid(g, p)
  {
    var i, j := c.0 % (g.xMax + 1), c.1 % (g.yMax + 1);
    assert OnGrid(g, At(g, i, j));
    At(g, i, j)
  }

  predicate Distinct(s: seq<Point>) {
    forall a, b :: 0 <= a < b < |s| ==> s[a] != s[b]
  }

  /** Apples that are valid so far: on the grid, distinct, and off the snake. */
  ghost predicate Placed(g: Grid, body: seq<Point>, s: seq<Point>) {
    && Distinct(s)
    && forall k :: 0 <= k < |s| ==> s[k] !in body && OnGrid(g, s[k])
  }

  /**
   The retry loop of place_apples over the candidate draws: keep a cell when it
   is neither a snake segment nor an apple already placed, stop at three. If it
   stops short of three, every candidate cell was taken.
   */
  function Fill(g: Grid, body: seq<Point>, placed: seq<Point>, cands: seq<Point>): (r: seq<Point>)
    requires g.xMax >= 0 && g.yMax >= 0
    requires |placed| <= 3 && Placed(g, body, placed)
    ensures placed <= r && |r| <= 3 && Placed(g, body, r)
    ensures |r| < 3 ==> forall c :: c in cands ==> Cell(g, c) in body || Cell(g, c) in r
    decreases |cands|
  {
    if |placed| >= 3 || |cands| == 0 then placed
    else
      var p := Cell(g, cands[0]);
      var next := if p !in body && p !in placed then placed + [p] else placed;
      LemmaPlacedAppend(g, body, placed, p);
      var r := Fill(g, body, next, cands[1..]);
      assert next <= r;
      assert p in body || p in r;
      r
  }

  /** Adding a free grid cell not yet taken keeps the apples valid. */
  lemma LemmaPlacedAppend(g: Grid, body: seq<Point>, placed: seq<Point>, p: Point)
    requires Placed(g, body, placed) && OnGrid(g, p)
    ensures p !in body && p !in placed ==> Placed(g, body, placed + [p])
  {
    if p !in body && p !in placed {
      var s := placed + [p];
      forall a, b | 0 <= a < b < |s|
        ensures s[a] != s[b]
      {
        if b < |placed| {
          assert s[a] == placed[a] && s[b] == placed[b];
        } else {
          assert s[b] == p && s[a] == placed[a];
        }
      }
    }
  }

  /** The next pick of a shuffle: the first one, or 0 once they run out. */
  function Head(picks: seq<nat>): nat {
    if |picks| == 0 then 0 else picks[0]
  }

  function Tail(picks: seq<nat>): seq<nat> {
    if |picks| == 0 then [] else picks[1..]
  }

  /** random.shuffle as a sequence of picks: each pick chooses the next element among those left. */
  function Shuffle<T>(s: seq<T>, picks: seq<nat>): (r: seq<T>)
    ensures multiset(r) == multiset(s)
    decreases |s|
  {
    if |s| == 0 then []
    else
      var i := Head(picks) % |s|;
      LemmaRemoveAt(s, i);
      [s[i]] + Shuffle(s[..i] + s[i + 1..], Tail(picks))
  }

  /** Every permutation of s is the outcome of some shuffle. */
  lemma LemmaShuffleReachesEveryPermutation<T>(s: seq<T>, r: seq<T>)
    requires multiset(r) == multiset(s)
    ensures exists picks :: Shuffle(s, picks) == r
  {
    var picks := PicksFor(s, r);
  }

  /** The picks that shuffle s into the permutation r: the position of each next element among those left. */
  lemma {:induction false} PicksFor<T>(s: seq<T>, r: seq<T>) returns (picks: seq<nat>)
    requires multiset(r) == multiset(s)
    ensures Shuffle(s, picks) == r
    decreases |s|
  {
    LemmaSameLength(s, r);
    if |s| == 0 {
      picks := [];
    } else {
      var i := IndexOf(s, r[0]);
      LemmaRestPermutation(s, r, i);
      var more := PicksFor(s[..i] + s[i + 1..], r[1..]);
      LemmaShuffleFirst(s, i, more);
      assert [r[0]] + r[1..] == r;
      picks := [i] + more;
    }
  }

  lemma LemmaSameLength<T>(s: seq<T>, r: seq<T>)
    requires multiset(r) == multiset(s)
    ensures |r| == |s|
  {
    assert |r| == |multiset(r)|;
    assert |s| == |multiset(s)|;
  }

  /** A position of an element that occurs in s. */
  lemma IndexOf<T>(s: seq<T>, x: T) returns (i: nat)
    requires x in multiset(s)
    ensures i < |s| && s[i] == x
  {
    assert x in s;
    i :| 0 <= i < |s| && s[i] == x;
  }

  /** Taking the same element out of two permutations of each other leaves permutations. */
  lemma LemmaRestPermutation<T>(s: seq<T>, r: seq<T>, i: nat)
    requires multiset(r) == multiset(s) && i < |s| && 0 < |r| && s[i] == r[0]
    ensures multiset(r[1..]) == multiset(s[..i] + s[i + 1..])
  {
    LemmaRemoveAt(s, i);
    assert r == [r[0]] + r[1..];
    assert multiset(r) == multiset{r[0]} + multiset(r[1..]);
  }

  /** A first pick of i takes s[i] first. */
  lemma LemmaShuffleFirst<T>(s: seq<T>, i: nat, more: seq<nat>)
    requires i < |s|
    ensures Shuffle(s, [i] + more) == [s[i]] + Shuffle(s[..i] + s[i + 1..], more)
  {
    var picks := [i] + more;
    assert picks[0] == i;
    LemmaModSmall(i, |s|);
    assert Tail(picks) == more;
    var k := Head(picks) % |s|;
    assert Shuffle(s, picks) == [s[k]] + Shuffle(s[..k] + s[k + 1..], Tail(picks));
  }

  lemma LemmaModSmall(i: nat, n: nat)
    requires i < n
    ensures i % n == i
  {
  }

  /** Removing the element at i removes one occurrence of it from the multiset. */
  lemma LemmaRemoveAt<T>(s: seq<T>, i: nat)
    requires i < |s|
    ensures multiset(s[..i] + s[i + 1..]) == multiset(s) - multiset{s[i]}
  {
    assert s == s[..i] + [s[i]] + s[i + 1..];
  }

  /**
   place_apples, returning (apple positions, options per slot). The options
   are the first three of the question's, shuffled; the apples are at most
   three distinct free grid cells, none at all when the window is too small.
   */
  function PlaceApples(cfg: Config, body: seq<Point>, options: seq<string>, picks: seq<nat>, cands: seq<Point>)
    : (r: (seq<Point>, seq<string>))
    requires cfg.Valid()
    ensures |r.0| <= 3 && Placed(GridOf(cfg), body, r.0)
    ensures !Roomy(GridOf(cfg)) ==> r.0 == []
    ensures Roomy(GridOf(cfg)) && |r.0| < 3 ==>
      forall c :: c in cands ==> Cell(GridOf(cfg), c) in body || Cell(GridOf(cfg), c) in r.0
    ensures multiset(r.1) == multiset(Take3(options))
  {
    var g := GridOf(cfg);
    var apples := if !Roomy(g) then [] else Fill(g, body, [], cands);
    (apples, Shuffle(Take3(options), picks))
  }

  /**
   Every grid cell lies fully on screen and inside the labelled band: at least
   one margin above the bottom edge and one below the top edge.
   */
  lemma LemmaCellOnScreen(cfg: Config, i: int, j: int)
    requires cfg.Valid()
    requires 0 <= i <= GridOf(cfg).xMax && 0 <= j <= GridOf(cfg).yMax
    ensures var g := GridOf(cfg); var p := At(g, i, j);
      && 0 <= p.0 && p.0 + cfg.appleSize <= cfg.width
      && g.margin <= p.1 && p.1 + cfg.appleSize <= cfg.height - g.margin
  {
    var g := GridOf(cfg);
    var a := cfg.appleSize;
    LemmaFloorTimes(cfg.width - a, a);
    LemmaFloorTimes(cfg.height - 2 * g.margin - a, a);
    LemmaMulMonotone(i, g.xMax, a);
    LemmaMulMonotone(j, g.yMax, a);
  }

  lemma LemmaFloorTimes(n: int, a: int)
    requires a > 0
    ensures (n / a) * a <= n
  {
  }

  lemma LemmaMulMonotone(i: int, k: int, a: int)
    requires 0 <= i <= k && a > 0
    ensures 0 <= i * a <= k * a
  {
  }
}

=== FILE: play.dfy ===
/**
 What one tick does in each of its three cases (no apple, right answer, wrong
 answer), when a game ends, and the invariant a running game keeps over any
 sequence of swipes and ticks.
 */
module Play {
  import opened Ints
  import opened Layout
  import opened Steering
  import opened Pace
  import opened Trivia
  import opened GameWidget

  /** What reaches the widget between ticks: a swipe, or the timer firing with fresh random draws. */
  datatype Event = Swipe(start: Point, end: Point) | Tick(draw: Draw)

  /**
   The game driven by a sequence of events; once it is over the tick is
   unscheduled and nothing changes. Along the way the category is fixed, the
   difficulty never drops and the high score never falls.
   */
  function Run(cfg: Config, pool: Pool, g: Game, events: seq<Event>): (r: StepResult)
    requires cfg.Valid()
    ensures g.over ==> r == Stepped(g)
    ensures r.Stepped? ==> r.game.category == g.category
    ensures r.Stepped? ==> Rank(r.game.difficulty) >= Rank(g.difficulty) && r.game.highScore >= g.highScore
    decreases |events|
  {
    if |events| == 0 || g.over then Stepped(g)
    else match events[0]
      case Swipe(a, b) => Run(cfg, pool, OnSwipe(cfg, g, a, b), events[1..])
      case Tick(d) =>
        match Step(cfg, pool, g, d)
        case EmptyBody => EmptyBody
        case Stepped(next) => Run(cfg, pool, next, events[1..])
  }

  /** Popping the tail after inserting a head keeps the head in front. */
  lemma LemmaDropLastAfterPush(p: Point, body: seq<Point>)
    requires |body| > 0
    ensures DropLast([p] + body) == [p] + DropLast(body)
  {
  }

  /**
   A tick that touches no apple keeps the score, length, apples, question and
   pace, and ends the game exactly when the new head lands on a segment other
   than the tail it vacates.
   */
  lemma LemmaStepMiss(cfg: Config, pool: Pool, g: Game, draw: Draw)
    requires cfg.Valid() && !g.over && |g.body| > 0
    requires FirstHit(cfg, NextHead(cfg, g), g.apples).Miss?
    ensures var r := Step(cfg, pool, g, draw);
      && r.Stepped?
      && r.game.score == g.score && |r.game.body| == |g.body|
      && r.game.apples == g.apples && r.game.options == g.options && r.game.question == g.question
      && r.game.difficulty == g.difficulty && r.game.fps == g.fps
      && r.game.body[0] == r.game.pos == NextHead(cfg, g)
      && r.game.body == [NextHead(cfg, g)] + DropLast(g.body)
      && (r.game.over <==> NextHead(cfg, g) in DropLast(g.body))
  {
  }

  /**
   Eating the apple with the correct answer raises the score by one and keeps
   the tail: the body grows by one. The game ends if the head lands on any old
   segment (or, from a score already at -4 or below, at the floor).
   */
  lemma LemmaStepCorrect(cfg: Config, pool: Pool, g: Game, draw: Draw)
    requires cfg.Valid() && !g.over
    requires FirstHit(cfg, NextHead(cfg, g), g.apples).HitAt?
    requires Answers(g, FirstHit(cfg, NextHead(cfg, g), g.apples).index)
    ensures var r := Step(cfg, pool, g, draw);
      && r.Stepped?
      && r.game.score == g.score + 1
      && |r.game.body| == |g.body| + 1
      && r.game.body[0] == r.game.pos == NextHead(cfg, g)
      && r.game.body == [NextHead(cfg, g)] + g.body
      && (r.game.over <==> g.score + 1 <= -3 || NextHead(cfg, g) in g.body)
      && (r.game.difficulty, r.game.fps) == AdjustDifficulty(g.score + 1, g.difficulty, g.fps)
      && (forall k :: 0 <= k < |r.game.apples| ==> r.game.apples[k] !in r.game.body)
      && multiset(r.game.options) == multiset(r.game.question.options)
  {
  }

  /**
   Eating a wrong apple lowers the score by one and pops one extra segment, so
   the body ends one shorter than before the tick. At the floor of -3 the game
   ends before the tail pop; a one-segment body that survives the floor is
   popped empty and the self-collision check then fails to read a head.
   */
  lemma LemmaStepWrong(cfg: Config, pool: Pool, g: Game, draw: Draw)
    requires cfg.Valid() && !g.over && |g.body| > 0
    requires FirstHit(cfg, NextHead(cfg, g), g.apples).HitAt?
    requires !Answers(g, FirstHit(cfg, NextHead(cfg, g), g.apples).index)
    ensures var r := Step(cfg, pool, g, draw);
      && (r.Stepped? ==> r.game.score == g.score - 1)
      && (r.Stepped? ==> (r.game.difficulty, r.game.fps) == AdjustDifficulty(g.score - 1, g.difficulty, g.fps))
      && (r.Stepped? ==> forall k :: 0 <= k < |r.game.apples| ==> r.game.apples[k] !in r.game.body)
      && (r.Stepped? ==> multiset(r.game.options) == multiset(r.game.question.options))
      && (g.score - 1 <= -3 ==> r.Stepped? && r.game.over && |r.game.body| == |g.body|)
      && (g.score - 1 > -3 && |g.body| >= 2 ==>
            && r.Stepped?
            && |r.game.body| == |g.body| - 1
            && r.game.body[0] == r.game.pos == NextHead(cfg, g)
            && r.game.body == [NextHead(cfg, g)] + g.body[..|g.body| - 2]
            && (r.game.over <==> NextHead(cfg, g) in g.body[..|g.body| - 2]))
      && (g.score - 1 > -3 && |g.body| == 1 ==> r.EmptyBody?)
  {
    var p := NextHead(cfg, g);
    LemmaDropLastAfterPush(p, g.body);
    if |g.body| >= 2 {
      LemmaDropLastAfterPush(p, DropLast(g.body));
      assert DropLast(DropLast(g.body)) == g.body[..|g.body| - 2];
      assert ([p] + g.body[..|g.body| - 2])[1..] == g.body[..|g.body| - 2];
    }
  }

  /**
   The question drawn after a resolution comes from the pool at the difficulty
   in force before that resolution's escalation.
   */
  lemma LemmaQuestionDrawnBeforeEscalation(cfg: Config, pool: Pool, g: Game, draw: Draw)
    requires cfg.Valid() && !g.over
    requires FirstHit(cfg, NextHead(cfg, g), g.apples).HitAt?
    ensures Step(cfg, pool, g, draw).Stepped? ==>
      Step(cfg, pool, g, draw).game.question == RandomQuestion(pool, g.category, g.difficulty, draw.pick)
  {
    var m := Advance(cfg, g);
    var e := Eat(cfg, pool, m, FirstHit(cfg, m.pos, m.apples).index, draw);
    assert e.0.question == RandomQuestion(pool, g.category, g.difficulty, draw.pick);
  }

  /** A game ends only at the score floor or on a self-collision. */
  lemma LemmaOverOnlyByFloorOrCollision(cfg: Config, pool: Pool, g: Game, draw: Draw)
    requires cfg.Valid() && !g.over
    ensures var r := Step(cfg, pool, g, draw);
      r.Stepped? && r.game.over ==> r.game.score <= -3 || r.game.body[0] in r.game.body[1..]
  {
  }

  /** A running game that satisfies the invariant never faults, and still satisfies it after a tick. */
  lemma LemmaStepKeepsInv(cfg: Config, pool: Pool, g: Game, draw: Draw)
    requires cfg.Valid() && Inv(cfg, g) && !g.over
    ensures Step(cfg, pool, g, draw).Stepped?
    ensures Inv(cfg, Step(cfg, pool, g, draw).game)
  {
    match FirstHit(cfg, NextHead(cfg, g), g.apples)
    case Miss =>
      LemmaStepMiss(cfg, pool, g, draw);
    case HitAt(i) =>
      if Answers(g, i) {
        LemmaStepCorrect(cfg, pool, g, draw);
      } else {
        LemmaStepWrong(cfg, pool, g, draw);
      }
  }

  /** A swipe only changes the pending direction, so it keeps the invariant. */
  lemma LemmaSwipeKeepsInv(cfg: Config, g: Game, a: Point, b: Point)
    requires Inv(cfg, g)
    ensures OnSwipe(cfg, g, a, b).(changeTo := g.changeTo) == g
    ensures OnSwipe(cfg, g, a, b).direction == g.direction
    ensures Inv(cfg, OnSwipe(cfg, g, a, b))
  {
  }

  /**
   A swipe too short to register sets the pending direction back to the
   current heading, cancelling a turn requested earlier in the same tick.
   */
  lemma LemmaShortSwipeCancelsTurn(cfg: Config, g: Game, a: Point, b: Point)
    requires 20 * Reach(b.0 - a.0, b.1 - a.1) <= cfg.width
    ensures OnSwipe(cfg, g, a, b).changeTo == g.direction
  {
  }

  /**
   Over any sequence of swipes and ticks a game that starts in the invariant
   never faults and keeps it: while running, the head is on screen and the body
   has exactly 3 + score segments, at least one. The difficulty never drops and
   the high score never falls.
   */
  lemma {:induction false} LemmaRunKeepsInv(cfg: Config, pool: Pool, g: Game, events: seq<Event>)
    requires cfg.Valid() && Inv(cfg, g)
    ensures Run(cfg, pool, g, events).Stepped?
    ensures var r := Run(cfg, pool, g, events).game;
      && Inv(cfg, r)
      && Rank(r.difficulty) >= Rank(g.difficulty)
      && r.highScore >= g.highScore
    decreases |events|
  {
    if |events| == 0 || g.over {
    } else {
      match events[0]
      case Swipe(a, b) =>
        LemmaSwipeKeepsInv(cfg, g, a, b);
        LemmaRunKeepsInv(cfg, pool, OnSwipe(cfg, g, a, b), events[1..]);
      case Tick(d) =>
        LemmaStepKeepsInv(cfg, pool, g, d);
        LemmaRunKeepsInv(cfg, pool, Step(cfg, pool, g, d).game, events[1..]);
    }
  }
}

=== FILE: steering.dfy ===
/** Headings, turning, one cell of wrapped movement, and the swipe-to-heading mapping. */
module Steering {
  import opened Ints
  import opened Layout

  datatype Direction = Up | Down | Left | Right

  function Opposite(d: Direction): Direction {
    match d
    case Up => Down
    case Down => Up
    case Left => Right
    case Right => Left
  }

  predicate Vertical(d: Direction) {
    d == Up || d == Down
  }

  /** Horizontal unit step of a heading. */
  function Dx(d: Direction): int {
    match d
    case Left => -1
    case Right => 1
    case _ => 0
  }

  /** Vertical unit step of a heading (y grows upwards). */
  function Dy(d: Direction): int {
    match d
    case Up => 1
    case Down => -1
    case _ => 0
  }

  /**
   The heading a tick adopts from the pending request (the if/elif chain at
   the top of update): the request wins unless it is the exact reverse.
   */
  function Turn(current: Direction, requested: Direction): (r: Direction)
    ensures requested != Opposite(current) ==> r == requested
    ensures requested == Opposite(current) ==> r == current
  {
    if requested == Up && current != Down then Up
    else if requested == Down && current != Up then Down
    else if requested == Left && current != Right then Left
    else if requested == Right && current != Left then Right
    else current
  }

  /**
   One cell of movement with wrap-around. Python's % with a positive modulus
   agrees with Dafny's: the new coordinate is the unique on-screen value
   congruent to the unwrapped one.
   */
  function Move(cfg: Config, p: Point, d: Direction): (r: Point)
    requires cfg.Valid()
    ensures InBounds(cfg, r)
    ensures (p.0 + Dx(d) * cfg.snakeSize - r.0) % cfg.width == 0
    ensures (p.1 + Dy(d) * cfg.snakeSize - r.1) % cfg.height == 0
  {
    var x := p.0 + Dx(d) * cfg.snakeSize;
    var y := p.1 + Dy(d) * cfg.snakeSize;
    LemmaModCongruent(x, cfg.width);
    LemmaModCongruent(y, cfg.height);
    (x % cfg.width, y % cfg.height)
  }

  lemma LemmaModCongruent(a: int, m: int)
    requires m > 0
    ensures (a - a % m) % m == 0
  {
    var q := a / m;
    assert a - a % m == q * m;
    LemmaMultipleMod(q, m);
  }

  lemma LemmaMultipleMod(q: int, m: int)
    requires m > 0
    ensures (q * m) % m == 0
  {
    var k := q - (q * m) / m;
    assert k * m == (q * m) % m;
    LemmaNonzeroMultiple(k, m);
  }

  lemma LemmaNonzeroMultiple(k: int, m: int)
    requires m > 0
    ensures k >= 1 ==> k * m >= m
    ensures k <= -1 ==> k * m <= -m
  {
  }

  /** How far the displacement (dx, dy) goes in heading d. */
  function Along(d: Direction, dx: int, dy: int): int {
    match d
    case Right => dx
    case Left => -dx
    case Up => dy
    case Down => -dy
  }

  /** The length of the dominant axis of a displacement. */
  function Reach(dx: int, dy: int): nat {
    if Abs(dx) >= Abs(dy) then Abs(dx) else Abs(dy)
  }

  /**
   detect_swipe. A swipe whose dominant displacement is more than 5% of the
   window WIDTH (for either axis) picks the heading that goes furthest along
   it, the vertical one on a tie; a shorter swipe returns the current heading.
   The float test |d| > WIDTH * 0.05 is written 20 * |d| > WIDTH.
   */
  function DetectSwipe(width: int, current: Direction, start: Point, end: Point): (r: Direction)
    ensures var dx, dy := end.0 - start.0, end.1 - start.1;
      && (20 * Reach(dx, dy) <= width ==> r == current)
      && (20 * Reach(dx, dy) > width ==> Along(r, dx, dy) == Reach(dx, dy))
      && (20 * Reach(dx, dy) > width && Abs(dx) == Abs(dy) ==> Vertical(r))
  {
    var dx := end.0 - start.0;
    var dy := end.1 - start.1;
    if Abs(dx) > Abs(dy) then
      if 20 * Abs(dx) > width then (if dx > 0 then Right else Left) else current
    else
      if 20 * Abs(dy) > width then (if dy > 0 then Up else Down) else current
  }

  /**
   The threshold for a vertical swipe is measured against the width, not the
   height: on a 100-pixel-wide window a 6-pixel upward swipe turns the snake,
   whatever the height, which the swipe test never sees.
   */
  lemma LemmaVerticalThresholdUsesWidth()
    ensures DetectSwipe(100, Left, (0, 0), (0, 6)) == Up
  {
  }
}

=== FILE: trivia.dfy ===
/**
 Question records and get_random_question. The question pool is the parsed
 trivia document: category, then difficulty, then a list of records.
 */
module Trivia {
  import opened Pace

  datatype Question = Question(text: string, options: seq<string>, correct: string)

  type Pool = map<string, map<Difficulty, seq<Question>>>

  const NotAvailable: string := "N/A"

  /** The record used when the pool has nothing for the category and difficulty. */
  const Placeholder: Question :=
    Question("No questions available.", [NotAvailable, NotAvailable, NotAvailable], NotAvailable)

  /** The `while len(options) < 3: append("N/A")` loop. */
  function Pad(o: seq<string>): (r: seq<string>)
    requires |o| <= 3
    ensures |r| == 3 && o <= r
    ensures forall i :: |o| <= i < 3 ==> r[i] == NotAvailable
    decreases 3 - |o|
  {
    if |o| < 3 then Pad(o + [NotAvailable]) else o
  }

  /** At most the first three options. */
  function Take3(o: seq<string>): seq<string> {
    if |o| > 3 then o[..3] else o
  }

  /** The options cut to their first three and padded with "N/A" up to three. */
  function Normalize(o: seq<string>): (r: seq<string>)
    ensures |r| == 3
    ensures forall i :: 0 <= i < 3 ==> r[i] == (if i < |o| then o[i] else NotAvailable)
  {
    Pad(Take3(o))
  }

  /** Normalizing is idempotent, so rewriting a pool record in place changes nothing on its next draw. */
  lemma LemmaNormalizeIdempotent(o: seq<string>)
    ensures Normalize(Normalize(o)) == Normalize(o)
  {
  }

  /** The records the pool holds for a category and difficulty; none when either key is missing. */
  function Available(pool: Pool, category: string, d: Difficulty): seq<Question> {
    if category in pool && d in pool[category] then pool[category][d] else []
  }

  /**
   get_random_question, with random.choice as the index `pick` reduced into
   range. The result always carries exactly three options; an empty choice
   yields the placeholder.
   */
  function RandomQuestion(pool: Pool, category: string, d: Difficulty, pick: nat): (r: Question)
    ensures |r.options| == 3
    ensures Available(pool, category, d) == [] ==> r == Placeholder
    ensures Available(pool, category, d) != [] ==>
      exists k :: 0 <= k < |Available(pool, category, d)| && Drawn(Available(pool, category, d)[k], r)
  {
    var avail := Available(pool, category, d);
    if |avail| == 0 then Placeholder
    else
      var q := avail[pick % |avail|];
      assert Drawn(avail[pick % |avail|], q.(options := Normalize(q.options)));
      q.(options := Normalize(q.options))
  }

  /** r is the record q as handed to the game: same text and answer, options normalized. */
  predicate Drawn(q: Question, r: Question) {
    r.text == q.text && r.correct == q.correct && r.options == Normalize(q.options)
  }

  /** Every record available for the category and difficulty can be drawn. */
  lemma LemmaEveryQuestionReachable(pool: Pool, category: string, d: Difficulty, k: nat)
    requires k < |Available(pool, category, d)|
    ensures Drawn(Available(pool, category, d)[k], RandomQuestion(pool, category, d, k))
  {
    var avail := Available(pool, category, d);
    assert k % |avail| == k;
  }
}
